=== FILE: README.md ===
# Signalling relay: room registry and message router

A Dafny model of the core of a WebRTC signalling relay. A host (game server)
asks for a lobby and gets a four-character room code. Clients ask for a
participant id and join the room under that id. Offers, answers and ICE
candidates are then relayed, as the exact raw text received, between the
clients and the room's host.

The process state is `rooms` (room code to `Room`) and `used_ids` (every id
issued). Here it is an immutable `Registry.State` record passed through each
step instead of module-level globals. One inbound message is handled by
`Router.Dispatch`, a pure function. It takes the state, the sender's
connection, the raw text, the parsed message and the values the generators
return. It gives back the new state and the list of `send` calls, or an error
when the handler throws. `Router.HandleMessage` is the same step with the
generator methods run first. A connection is an opaque type parameter `C`.

Modules:

- `Wrappers`: `Option` and `Result`.
- `Generation` (src/generation.ts): the code alphabet and id range. Also the
  code and id generators, driven by explicit streams of random draws. The
  generators receive `rooms` or `used_ids` by value and return only the new
  value. They cannot register it; the lobby and id handlers do that.
- `Registry` (src/types.ts, src/server.ts): `Room`, `State` and the initial
  state. Its lookups `LookupRoom` and `LookupUser` model the `Map.get` and
  `Map.has` calls the handlers make on `rooms` and on a room's `users`.
- `Messages` (src/ws_messages.ts): the router's own type enum and its
  numbering, the parsed message, replies, frames and `buildMessage`.
- `Router` (src/ws_messages.ts): the reply builders, the six handlers,
  dispatch, and dispatch combined with the generators.
- `Lifecycle`: the state invariant, how the state grows, runs of many
  messages, and a whole session.

Behaviour of the code worth noting:

- Message types are numbered by the enum in src/ws_messages.ts:6-16 (Id=0,
  Join=1, Lobby=4, Candidate=5, Offer=6, Answer=7), not by the one in
  src/types.ts:23-33. A lobby reply has type Lobby (4) and id -1.
- Candidate routing looks at the truthiness of `server`. Answer and candidate
  targets are looked up by the message's `id` field. The `from` and `to`
  fields declared at src/types.ts:11-12 are never read.
- The alphabet has 35 characters (no `0`), so there are 35^4 codes.
- A lobby request stores the room with a plain map update. The code does no
  duplicate-code check. Only the generator's freshness keeps an existing room
  from being overwritten. `Lifecycle.DispatchPreserves` assumes that
  freshness.
- A join does not check that its id was ever issued. It does not reject the
  reserved id 1 either (`Lifecycle.JoinAcceptsReservedId`). So "every user id
  was issued" is not an invariant of the code, and the model does not claim
  it.
- A relay message can make the log line just before its send throw a
  TypeError. This happens when there is no `payload` object (all three
  relays). For an offer or an answer it also happens when `sdp` is present,
  not null and not a string, because `?.` only skips a missing or null value and other
  values have no `replace`. The throw comes before any send and any state
  change. The model returns it as `Err(PayloadMissing)` or
  `Err(SdpNotString)`.

## Model

| member | source | states |
|---|---|---|
| Generation.AlphabetShape | src/generation.ts:5 | The alphabet is the 26 letters A to Z in order, then the digits 1 to 9: 35 characters, no `0`. |
| Generation.CharIndex | src/generation.ts:5 | Every code character sits in the alphabet at the returned index. |
| Generation.SpellRoundTrip | src/generation.ts:4-12 | Draw sequences and strings over the alphabet correspond one to one: distinct draws spell distinct codes, and every such string can be drawn. |
| Generation.Spell | src/generation.ts:7-10 | A sequence of draws spells a code of the same length, and every character of that code is a letter or a digit 1 to 9. |
| Generation.Unspell | src/generation.ts:5 | Every string over the alphabet maps to a sequence of valid draws, one per character. |
| Generation.GenerateRoomCode | src/generation.ts:4-12 | The code has exactly `len` characters (none when `len` is not positive). Each character is a letter or a digit 1 to 9, never `0`, and character i is the one draw i picks. |
| Generation.GenerateUniqueRoomCode | src/generation.ts:15-21 | The result is a 4-character code whatever `len` is. It is not a key of `rooms`. It is the first fresh attempt: every earlier attempt spelled a code in use. |
| Generation.GenerateId | src/generation.ts:24-29 | Every id drawn lies in [2, 2147483647] and is never 1. Each draw gives a distinct id. |
| Generation.GenerateUniqueId | src/generation.ts:32-38 | The id is in [2, 2147483647], is not 1 and is not in `used_ids`. It is the first fresh draw: every earlier draw gave an id already issued. |
| Registry.NewRoom | src/types.ts:3-7 | A new room has the given host, no users, and is not sealed. |
| Registry.LookupRoom | src/ws_messages.ts:136 | A room is found exactly when the message has a room code and that code is a key, and it is the room stored under the code. |
| Registry.LookupUser | src/ws_messages.ts:149 | A user is found exactly when the id is a key of the room's users, and it is the connection stored under the id. |
| Messages.Ordinal | src/ws_messages.ts:6-16 | Every message type travels as a number from 0 to 8. |
| Messages.Decode | src/ws_messages.ts:6-16 | A type number names a message type exactly when it is 0 to 8, and the type's own number is that number. |
| Messages.DecodeOrdinal | src/ws_messages.ts:6-16 | Decoding a type's number gives back the type. |
| Messages.BuildMessage | src/ws_messages.ts:50-60 | Every built reply has `server = false` and a type number that decodes to the requested type. It carries the given id, code and payload. |
| Router.SendRoomCode | src/ws_messages.ts:113-116 | The lobby reply goes to the requesting connection. It has type Lobby, id -1, the new code and `server = false`. |
| Router.SendIdResponse | src/ws_messages.ts:119-122 | The id reply goes to the requesting connection. It has type Id, the new id, room code "" and `server = false`. |
| Router.SendJoinResponse | src/ws_messages.ts:125-128 | The join reply goes to the joining connection. It has type Join, id 0, the requested code (absent if the request had none), the success flag and `server = false`. |
| Router.HandleLobby | src/ws_messages.ts:67-80 | After a lobby request the keys are the old keys plus the code. The room under the code is hosted by the sender, with no users and not sealed. Every other room is unchanged, as is `used_ids`. The sender gets exactly one Lobby reply with the code. |
| Router.HandleId | src/ws_messages.ts:83-88 | `used_ids` becomes the old list with exactly the new id appended. Rooms are unchanged. The sender gets exactly one Id reply with that id. |
| Router.HandleJoin | src/ws_messages.ts:91-106 | Joining an unknown or missing code changes nothing and answers failure with the requested code. Joining an existing room sets `users[id]` to the sender, replacing any earlier connection. Host, `sealed`, other users, other rooms and `used_ids` stay unchanged, and the answer is success. |
| Router.RelayOffer | src/ws_messages.ts:135-142 | State never changes. If the room exists, the raw text goes to its host and to no one else. If the room is unknown, nothing is sent. In an existing room, a missing payload, or an `sdp` that is present, not null and not a string, throws before the send. |
| Router.RelayAnswer | src/ws_messages.ts:145-155 | State never changes. The raw text goes only to `users[id]`, and only when both the room and that user exist. Otherwise nothing is sent. A missing payload, or an `sdp` that is present, not null and not a string, throws only when both exist. |
| Router.RelayCandidate | src/ws_messages.ts:158-173 | State never changes, and an unknown room means nothing is sent. With `server` truthy the raw text goes to `users[id]`, and is dropped when that user is absent. Otherwise it goes to the host, whatever the id. A missing payload throws exactly when a send would have happened. |
| Router.Dispatch | src/ws_messages.ts:19-47 | At most one frame is sent per message. Built replies go only to the sender and all have `server = false`. Raw frames are only the unchanged inbound text, and only for relay types. Only Lobby, Id and Join change state, and only Id changes `used_ids`. Every other type number sends nothing. Only a relay type throws, and only when its payload is missing or its `sdp` is not a string. |
| Router.HandleMessage | src/ws_messages.ts:67-88 | With the generators run first, a lobby request stores a new room under a well-formed code that was not a key before, hosted by the sender. An id request appends an in-range id that was not issued before. |
| Lifecycle.InitialValid | src/server.ts:5-6 | The state the process starts in meets the invariant. |
| Lifecycle.IdPreserves | src/ws_messages.ts:83-88 | An id request with an id that is in range and not yet issued keeps the ids distinct and in range, and only appends. |
| Lifecycle.LobbyPreserves | src/ws_messages.ts:67-80 | A lobby request with a fresh well-formed code keeps the invariant: room keys well-formed, no room sealed, ids untouched. Every pre-existing room is unchanged, hosts and users included. |
| Lifecycle.JoinPreserves | src/ws_messages.ts:91-106 | A join keeps the invariant. It never removes a room or a user, and never changes a host or `sealed`. |
| Lifecycle.DispatchPreserves | src/ws_messages.ts:19-47 | Given generated values that meet the generators' contracts, a handled message keeps the invariant. The invariant is: issued ids distinct and in range, room keys well-formed codes, no room sealed. The state also only grows: no room disappears, no host is reassigned, no user id leaves a room, `sealed` never changes, and ids are only appended. |
| Lifecycle.RunPreserves | src/server.ts:16-18 | The same holds over any sequence of handled messages, from any valid state. |
| Lifecycle.IssuedIdsDistinct | src/generation.ts:32-38 | Over a run from process start, every issued id is in [2, 2147483647], so none is 1, and no id is issued twice. |
| Lifecycle.JoinAcceptsReservedId | src/ws_messages.ts:101-102 | A join to an existing room registers the sender under id 1, an id that is never issued. |
| Lifecycle.Session | src/ws_messages.ts:19-47 | Id request, lobby request, join, offer: each reply is as described, and the offer reaches the host as the exact raw text. |

## Left out

- Transport: the WebSocket server, its port, and the connection and close
  handlers (src/server.ts:9-23) are I/O. The close handler only logs, so there
  is no removal on disconnect, and the model has none. A `send` is recorded as
  a `Send` value, not performed.
- JSON: `JSON.parse` and `JSON.stringify` are not modelled. A message arrives
  parsed, and a reply is a `Reply` record. Malformed JSON throws before
  dispatch and is outside the model.
- Field types: `type` and `id` are integers. A non-numeric `type` would match
  no case, exactly as an unknown number does. A missing or non-numeric `id`
  would become a non-numeric key of the user map, and is not modelled.
  `server` is the field's truthiness.
- Logging: the `console.log` calls and the `\r\n` to space rewrite of the SDP
  only produce log output. The model keeps one effect they have on behaviour:
  reading `payload.sdp` or `payload.name` for a relay's log line can throw. A
  missing or null `payload` throws. For an offer or an answer, so does an
  `sdp` that is present, not null and not a string. A
  `payload` that is some other non-object value reads as one with no fields.
- `room_code` and `payload.name` are strings. A non-string value is not
  modelled. Neither is the TypeError a log template raises when it converts
  an object without a callable `toString` (src/ws_messages.ts:96, 104, 140,
  153, 166, 171). For example, such a `name` on a candidate throws before the
  send, and such a `room_code` on a join throws before the failure reply.
- What follows an uncaught throw (it may end the process) is outside the
  model. Since nothing changed before the throw, the state results hold for
  every prefix of a run either way.
- Randomness: the floating-point `Math.random`/`Math.floor` arithmetic is
  replaced by explicit draws. A code character is an index in [0, 35), and an
  id is an offset in [0, 2147483646) added to 2.
- Generation.GenerateUniqueRoomCode: the source loop is unbounded. The model
  requires the stream of attempts to contain a fresh code, which is exactly
  when the source loop ends. It does not model a draw stream that never
  produces one. Generation.GenerateUniqueId is treated the same way.
- Generation.GenerateRoomCode: `len` is an integer. A fractional length, which
  would run the loop one extra time, is not modelled.
- src/types.ts: only the `Room` shape is used. Its `MessagePayload` fields and
  its enum are not what the router reads.

=== FILE: generation.dfy ===
/**
 * Room codes and participant ids (src/generation.ts).
 *
 * The source draws from `Math.random`. Here every random draw is an explicit
 * input: a draw for one code character is an index into the alphabet, a draw
 * for an id is an offset into the id range. The retry loops read a stream of
 * such draws and stop at the first value not already taken. The source's
 * loops are unbounded; the model asks of the stream only that it does hold a
 * fresh value somewhere, which is exactly the condition under which the
 * source's loop terminates.
 */
module Generation {

  /** The characters a room code is drawn from: `A` to `Z`, then `1` to `9` (never `0`). */
  const Alphabet: string := "ABCDEFGHIJKLMNOPQRSTUVWXYZ123456789"

  /** The length the unique generator always uses, whatever length it is asked for. */
  const CodeLength: nat := 4

  /** Ids are issued from [MinId, MaxId]; id 1 is reserved for the host side. */
  const MinId: int := 2
  const MaxId: int := 2147483647

  /** Number of distinct ids one draw can produce. */
  const IdSpan: int := MaxId - MinId + 1

  predicate IsCodeChar(c: char) {
    'A' <= c <= 'Z' || '1' <= c <= '9'
  }

  /** A well-formed room code: four alphabet characters. */
  predicate IsRoomCode(s: string) {
    |s| == CodeLength && forall i :: 0 <= i < |s| ==> IsCodeChar(s[i])
  }

  predicate IsId(id: int) {
    MinId <= id <= MaxId
  }

  /** A draw for one code character: an index into the alphabet. */
  predicate IsDraw(d: int) {
    0 <= d < |Alphabet|
  }

  predicate AreDraws(ds: seq<int>) {
    forall i :: 0 <= i < |ds| ==> IsDraw(ds[i])
  }

  /** The alphabet character at position k, computed from k alone. */
  function CodeChar(k: int): char
    requires 0 <= k < |Alphabet|
  {
    if k < 26 then ('A' as int + k) as char else ('1' as int + (k - 26)) as char
  }

  /** The literal alphabet is the letters in order followed by the digits 1 to 9. */
  lemma AlphabetShape()
    ensures |Alphabet| == 35
    ensures forall k :: 0 <= k < |Alphabet| ==> Alphabet[k] == CodeChar(k)
  {
  }

  /** Position of a code character in the alphabet: the inverse of indexing it. */
  function CharIndex(c: char): (k: int)
    requires IsCodeChar(c)
    ensures IsDraw(k) && Alphabet[k] == c
  {
    AlphabetShape();
    if 'A' <= c then c as int - 'A' as int else 26 + (c as int - '1' as int)
  }

  /** The code a sequence of draws spells, draw i choosing character i. */
  function Spell(draws: seq<int>): (code: string)
    requires AreDraws(draws)
    ensures |code| == |draws|
    ensures forall i :: 0 <= i < |code| ==> IsCodeChar(code[i])
  {
    AlphabetShape();
    seq(|draws|, i requires 0 <= i < |draws| => Alphabet[draws[i]])
  }

  /** The draws that spell a code. */
  function Unspell(code: string): (draws: seq<int>)
    requires forall i :: 0 <= i < |code| ==> IsCodeChar(code[i])
    ensures |draws| == |code| && AreDraws(draws)
  {
    seq(|code|, i requires 0 <= i < |code| => CharIndex(code[i]))
  }

  /**
   * Spelling is a bijection between draw sequences and strings over the
   * alphabet: distinct draws give distinct codes, and every code over the
   * alphabet can be drawn.
   */
  lemma SpellRoundTrip(draws: seq<int>, code: string)
    requires AreDraws(draws)
    requires forall i :: 0 <= i < |code| ==> IsCodeChar(code[i])
    ensures Unspell(Spell(draws)) == draws
    ensures Spell(Unspell(code)) == code
  {
  }

  /**
   * generateRoomCode(len): one alphabet character per draw, `len` times.
   * A non-positive `len` gives the empty code.
   */
  method GenerateRoomCode(len: int, draws: seq<int>) returns (code: string)
    requires AreDraws(draws) && len <= |draws|
    ensures len >= 0 ==> |code| == len
    ensures len < 0 ==> code == ""
    ensures forall i :: 0 <= i < |code| ==> IsCodeChar(code[i])
    ensures code == Spell(draws[..|code|])
  {
    AlphabetShape();
    code := "";
    var i := 0;
    while i < len
      invariant 0 <= i <= |draws|
      invariant len >= 0 ==> i <= len
      invariant len < 0 ==> i == 0
      invariant |code| == i
      invariant code == Spell(draws[..i])
    {
      code := code + [Alphabet[draws[i]]];
      i := i + 1;
    }
  }

  /** A stream of attempts for the unique-code loop: four draws per attempt. */
  predicate AreCodeAttempts(attempts: seq<seq<int>>) {
    forall j :: 0 <= j < |attempts| ==> |attempts[j]| == CodeLength && AreDraws(attempts[j])
  }

  /** The stream holds an attempt whose code is not a key of `rooms`, so the retry loop stops. */
  predicate HasFreshCode<R>(rooms: map<string, R>, attempts: seq<seq<int>>)
    requires AreCodeAttempts(attempts)
  {
    exists j :: 0 <= j < |attempts| && Spell(attempts[j]) !in rooms
  }

  /**
   * generateUniqueRoomCode(len): draw four-character codes until one is not
   * a key of `rooms`. The argument `len` is ignored, as in the source. The
   * result is the FIRST fresh attempt of the stream; `rooms` is only read.
   */
  method GenerateUniqueRoomCode<R>(rooms: map<string, R>, len: int, attempts: seq<seq<int>>)
    returns (code: string, tries: nat)
    requires AreCodeAttempts(attempts) && HasFreshCode(rooms, attempts)
    ensures IsRoomCode(code) && code !in rooms
    ensures tries < |attempts| && code == Spell(attempts[tries])
    ensures forall j :: 0 <= j < tries ==> Spell(attempts[j]) in rooms
  {
    tries := 0;
    code := GenerateRoomCode(CodeLength, attempts[0]);
    while code in rooms
      invariant tries < |attempts|
      invariant code == Spell(attempts[tries])
      invariant forall j :: 0 <= j < tries ==> Spell(attempts[j]) in rooms
      decreases |attempts| - tries
    {
      tries := tries + 1;
      code := GenerateRoomCode(CodeLength, attempts[tries]);
    }
  }

  /** generateId(): one draw, an offset in [0, IdSpan), shifted into the id range. */
  function GenerateId(offset: int): (id: int)
    requires 0 <= offset < IdSpan
    ensures IsId(id) && id != 1
    ensures id - MinId == offset
  {
    MinId + offset
  }

  predicate AreIdDraws(draws: seq<int>) {
    forall j :: 0 <= j < |draws| ==> 0 <= draws[j] < IdSpan
  }

  /** The stream holds a draw whose id has not been issued, so the retry loop stops. */
  predicate HasFreshId(usedIds: seq<int>, draws: seq<int>)
    requires AreIdDraws(draws)
  {
    exists j :: 0 <= j < |draws| && GenerateId(draws[j]) !in usedIds
  }

  /**
   * generateUniqueId(): draw ids until one is not in `usedIds`. The result is
   * the FIRST fresh draw of the stream; `usedIds` is only read.
   */
  method GenerateUniqueId(usedIds: seq<int>, draws: seq<int>) returns (id: int, tries: nat)
    requires AreIdDraws(draws) && HasFreshId(usedIds, draws)
    ensures IsId(id) && id != 1 && id !in usedIds
    ensures tries < |draws| && id == GenerateId(draws[tries])
    ensures forall j :: 0 <= j < tries ==> GenerateId(draws[j]) in usedIds
  {
    tries := 0;
    id := GenerateId(draws[0]);
    while id in usedIds
      invariant tries < |draws|
      invariant id == GenerateId(draws[tries])
      invariant forall j :: 0 <= j < tries ==> GenerateId(draws[j]) in usedIds
      decreases |draws| - tries
    {
      tries := tries + 1;
      id := GenerateId(draws[tries]);
    }
  }
}

=== FILE: lifecycle.dfy ===
/**
 * What holds of the relay's state over its whole lifetime: the invariant
 * every handled message preserves, and how the state grows from one message
 * to the next.
 */
module Lifecycle {
  import opened Wrappers
  import opened Generation
  import opened Registry
  import opened Messages
  import opened Router

  /** No id occurs twice in the list. */
  predicate NoDuplicates(ids: seq<int>) {
    forall i, j :: 0 <= i < j < |ids| ==> ids[i] != ids[j]
  }

  /**
   * The state invariant: issued ids are pairwise distinct and in range
   * (never the reserved 1), every room is keyed by a well-formed code, and
   * no room is sealed.
   */
  predicate Valid<C>(st: State<C>) {
    && NoDuplicates(st.usedIds)
    && (forall i :: 0 <= i < |st.usedIds| ==> IsId(st.usedIds[i]))
    && (forall k :: k in st.rooms ==> IsRoomCode(k) && !st.rooms[k].sealed)
  }

  /** The state a step leaves: a handler that threw changed nothing. */
  function After<C>(st: State<C>, r: Result<Effect<C>, Fault>): State<C> {
    if r.Ok? then r.value.state else st
  }

  /**
   * `b` extends `a`: no room disappears, no host is reassigned, no user id
   * leaves a room, `sealed` never changes, and issued ids are only appended.
   */
  ghost predicate Grows<C>(a: State<C>, b: State<C>) {
    && a.rooms.Keys <= b.rooms.Keys
    && (forall k :: k in a.rooms ==>
          && b.rooms[k].host == a.rooms[k].host
          && b.rooms[k].sealed == a.rooms[k].sealed
          && a.rooms[k].users.Keys <= b.rooms[k].users.Keys)
    && |a.usedIds| <= |b.usedIds|
    && b.usedIds[..|a.usedIds|] == a.usedIds
  }

  lemma GrowsTransitive<C>(a: State<C>, b: State<C>, c: State<C>)
    requires Grows(a, b) && Grows(b, c)
    ensures Grows(a, c)
  {
  }

  lemma InitialValid<C>()
    ensures Valid(Initial<C>())
  {
  }

  /** An id request with a fresh in-range id keeps the invariant and only appends to the ids. */
  lemma IdPreserves<C>(st: State<C>, ws: C, id: int)
    requires Valid(st) && IsId(id) && id !in st.usedIds
    ensures Valid(HandleId(st, ws, id).state) && Grows(st, HandleId(st, ws, id).state)
  {
    var ids := HandleId(st, ws, id).state.usedIds;
    forall i, j | 0 <= i < j < |ids| ensures ids[i] != ids[j] {
      if j == |st.usedIds| {
        assert ids[i] == st.usedIds[i];
      }
    }
  }

  /** A lobby request with a fresh well-formed code keeps the invariant and only adds a room. */
  lemma LobbyPreserves<C>(st: State<C>, ws: C, code: string)
    requires Valid(st) && IsRoomCode(code) && code !in st.rooms
    ensures Valid(HandleLobby(st, ws, code).state) && Grows(st, HandleLobby(st, ws, code).state)
    ensures forall k :: k in st.rooms ==> HandleLobby(st, ws, code).state.rooms[k] == st.rooms[k]
  {
  }

  /** A join keeps the invariant and only adds or replaces a user. */
  lemma JoinPreserves<C>(st: State<C>, ws: C, msg: Message)
    requires Valid(st)
    ensures Valid(HandleJoin(st, ws, msg).state) && Grows(st, HandleJoin(st, ws, msg).state)
  {
  }

  /**
   * One handled message, with generated values that meet the generators'
   * contracts, keeps the invariant and only grows the state.
   */
  lemma DispatchPreserves<C>(st: State<C>, ws: C, raw: string, msg: Message, gen: Generated)
    requires Valid(st) && GeneratedFor(st, msg, gen)
    ensures Valid(After(st, Dispatch(st, ws, raw, msg, gen)))
    ensures Grows(st, After(st, Dispatch(st, ws, raw, msg, gen)))
  {
    var t := Decode(msg.typ);
    if t == Some(Id) {
      IdPreserves(st, ws, gen.id);
    } else if t == Some(Lobby) {
      LobbyPreserves(st, ws, gen.code);
    } else if t == Some(Join) {
      JoinPreserves(st, ws, msg);
    } else {
      assert After(st, Dispatch(st, ws, raw, msg, gen)) == st;
    }
  }

  /** One inbound frame: its sender, raw text, parsed message and the generators' results. */
  datatype Inbound<C> = Inbound(ws: C, raw: string, msg: Message, gen: Generated)

  /** The state after handling a sequence of inbound frames in order. */
  function Run<C>(st: State<C>, ins: seq<Inbound<C>>): State<C>
    decreases |ins|
  {
    if ins == [] then st
    else
      var i := ins[0];
      Run(After(st, Dispatch(st, i.ws, i.raw, i.msg, i.gen)), ins[1..])
  }

  /** Every frame's generated values meet the generators' contracts in the state it meets. */
  predicate GeneratedAlong<C>(st: State<C>, ins: seq<Inbound<C>>)
    decreases |ins|
  {
    ins == [] ||
      (var i := ins[0];
       GeneratedFor(st, i.msg, i.gen)
       && GeneratedAlong(After(st, Dispatch(st, i.ws, i.raw, i.msg, i.gen)), ins[1..]))
  }

  /**
   * Over any run from a valid state, the invariant holds at the end and the
   * state only grows: ids issued over the whole process lifetime stay
   * pairwise distinct, and room hosts are never reassigned.
   */
  lemma {:induction false} RunPreserves<C>(st: State<C>, ins: seq<Inbound<C>>)
    requires Valid(st) && GeneratedAlong(st, ins)
    ensures Valid(Run(st, ins)) && Grows(st, Run(st, ins))
    decreases |ins|
  {
    if ins != [] {
      var i := ins[0];
      var next := After(st, Dispatch(st, i.ws, i.raw, i.msg, i.gen));
      DispatchPreserves(st, i.ws, i.raw, i.msg, i.gen);
      RunPreserves(next, ins[1..]);
      GrowsTransitive(st, next, Run(next, ins[1..]));
    }
  }

  /**
   * Every id issued over a run from the initial state is in range (so never
   * the reserved 1) and differs from every other id issued in the run.
   */
  lemma IssuedIdsDistinct<C>(ins: seq<Inbound<C>>)
    requires GeneratedAlong(Initial<C>(), ins)
    ensures var ids := Run(Initial<C>(), ins).usedIds;
      forall i :: 0 <= i < |ids| ==> IsId(ids[i]) && ids[i] != 1
    ensures NoDuplicates(Run(Initial<C>(), ins).usedIds)
  {
    InitialValid<C>();
    RunPreserves(Initial<C>(), ins);
  }

  /**
   * The intended session: a client asks for an id and gets `x`; a host asks
   * for a lobby and gets code "AB12"; the client joins "AB12" as `x` and is
   * told it succeeded; the client's offer then reaches the host as the exact
   * raw text, and nobody else.
   */
  lemma Session<C>(host: C, client: C, x: int, offerRaw: string)
    requires IsId(x)
    ensures
      var idMsg := Message(Ordinal(Id), 0, None, false, None);
      var s1 := Dispatch(Initial<C>(), client, "", idMsg, Generated("", x));
      var lobbyMsg := Message(Ordinal(Lobby), 0, None, false, None);
      var s2 := Dispatch(s1.value.state, host, "", lobbyMsg, Generated("AB12", 0));
      var joinMsg := Message(Ordinal(Join), x, Some("AB12"), false, None);
      var s3 := Dispatch(s2.value.state, client, "", joinMsg, Generated("", 0));
      var offer := Message(Ordinal(Offer), x, Some("AB12"), false, Some(Payload(SdpText("v=0"), None)));
      var s4 := Dispatch(s3.value.state, client, offerRaw, offer, Generated("", 0));
      && s1 == Ok(Effect(State(map[], [x]), [SendIdResponse(client, x)]))
      && s2.value.sends == [SendRoomCode(host, "AB12")]
      && s3.value.sends == [SendJoinResponse(client, true, Some("AB12"))]
      && s3.value.state.rooms["AB12"].users == map[x := client]
      && s4 == Ok(Effect(s3.value.state, [Send(host, Raw(offerRaw))]))
  {
  }

  /**
   * A join is not checked against the issued ids: in a valid state, joining
   * an existing room as the reserved id 1, which is never issued, still
   * registers the sender under 1.
   */
  lemma JoinAcceptsReservedId<C>(st: State<C>, ws: C, code: string)
    requires Valid(st) && code in st.rooms
    ensures 1 !in st.usedIds
    ensures var e := HandleJoin(st, ws, Message(Ordinal(Join), 1, Some(code), false, None));
      1 in e.state.rooms[code].users && e.state.rooms[code].users[1] == ws
  {
  }
}

=== FILE: messages.dfy ===
/**
 * Parsed inbound messages and built replies (src/ws_messages.ts). JSON
 * parsing and serialisation are not modelled: an inbound message arrives
 * already parsed, next to its raw text, and a reply is a record.
 */
module Messages {
  import opened Wrappers

  /** The router's own message-type enum, numbered by declaration order from 0. */
  datatype MessageType =
    | Id | Join | UserConnected | UserDisconnected | Lobby | Candidate | Offer | Answer | CheckIn

  /** The number a message type travels as on the wire. */
  function Ordinal(t: MessageType): (n: int)
    ensures 0 <= n <= 8
  {
    match t
    case Id => 0
    case Join => 1
    case UserConnected => 2
    case UserDisconnected => 3
    case Lobby => 4
    case Candidate => 5
    case Offer => 6
    case Answer => 7
    case CheckIn => 8
  }

  /** The message type a wire number names, if any. */
  function Decode(n: int): (t: Option<MessageType>)
    ensures t.Some? <==> 0 <= n <= 8
    ensures t.Some? ==> Ordinal(t.value) == n
  {
    if n == 0 then Some(Id)
    else if n == 1 then Some(Join)
    else if n == 2 then Some(UserConnected)
    else if n == 3 then Some(UserDisconnected)
    else if n == 4 then Some(Lobby)
    else if n == 5 then Some(Candidate)
    else if n == 6 then Some(Offer)
    else if n == 7 then Some(Answer)
    else if n == 8 then Some(CheckIn)
    else None
  }

  /** Decoding inverts the numbering: each type is named by exactly one number. */
  lemma DecodeOrdinal(t: MessageType)
    ensures Decode(Ordinal(t)) == Some(t)
  {
  }

  /**
   * The `sdp` field as the offer and answer log lines see it: missing or
   * null, a string, or any other JSON value (a number, a boolean, an array,
   * an object), which has no `replace` method.
   */
  datatype Sdp = NoSdp | SdpText(text: string) | NonString

  /**
   * The `payload` object of an inbound message. A payload that is missing or
   * null is `None`; a payload that is some other non-object value reads as
   * one with no fields.
   */
  datatype Payload = Payload(sdp: Sdp, name: Option<string>)

  /** Reading `payload.sdp?.replace(...)` for the log line throws. */
  predicate SdpLogThrows(payload: Option<Payload>) {
    payload.None? || payload.value.sdp.NonString?
  }

  /** Reading `payload.name` for the log line throws. */
  predicate NameLogThrows(payload: Option<Payload>) {
    payload.None?
  }

  /**
   * The fields of a parsed message the router reads. `room_code` and
   * `payload` may be missing; `server` is the truthiness of the field
   * (a missing field is false).
   */
  datatype Message = Message(
    typ: int,
    id: int,
    room_code: Option<string>,
    server: bool,
    payload: Option<Payload>)

  /** The payload of a built reply: empty, or the join status. */
  datatype ReplyPayload = NoFields | JoinStatus(successful: bool)

  /** A reply built by the router; a missing `room_code` is omitted when serialised. */
  datatype Reply = Reply(
    id: int,
    room_code: Option<string>,
    typ: int,
    payload: ReplyPayload,
    server: bool)

  /** An outbound frame: a reply the router built, or an inbound raw text forwarded as is. */
  datatype Frame = Built(reply: Reply) | Raw(text: string)

  /** One call of `send` on a connection. */
  datatype Send<C> = Send(to: C, frame: Frame)

  /** buildMessage: every reply says it is not from the server side, and carries its type's number. */
  function BuildMessage(t: MessageType, payload: ReplyPayload, id: int, room_code: Option<string>): (r: Reply)
    ensures !r.server
    ensures Decode(r.typ) == Some(t)
    ensures r.id == id && r.room_code == room_code && r.payload == payload
  {
    Reply(id, room_code, Ordinal(t), payload, false)
  }
}

=== FILE: registry.dfy ===
/**
 * The relay's process state (src/types.ts and the declarations in
 * src/server.ts), as an immutable record passed through every step instead
 * of module-level globals. A connection is the type parameter `C`: an opaque
 * handle owned by the transport.
 */
module Registry {
  import opened Wrappers

  /** A room: its host connection, its users keyed by participant id, and a flag nothing ever sets. */
  datatype Room<C> = Room(host: C, users: map<int, C>, sealed: bool)

  /** `rooms` maps room code to room; `usedIds` lists every id issued so far, oldest first. */
  datatype State<C> = State(rooms: map<string, Room<C>>, usedIds: seq<int>)

  /** The state at process start: no rooms, no ids. */
  function Initial<C>(): State<C> {
    State(map[], [])
  }

  /** The room a lobby request creates for its sender. */
  function NewRoom<C>(host: C): (room: Room<C>)
    ensures room.host == host && |room.users| == 0 && !room.sealed
  {
    Room(host, map[], false)
  }

  /** `rooms.get(room_code)`: a missing code field finds no room. */
  function LookupRoom<C>(st: State<C>, code: Option<string>): (r: Option<Room<C>>)
    ensures r.Some? <==> code.Some? && code.value in st.rooms
    ensures r.Some? ==> r.value == st.rooms[code.value]
  {
    if code.Some? && code.value in st.rooms then Some(st.rooms[code.value]) else None
  }

  /** `room.users.get(id)`. */
  function LookupUser<C>(room: Room<C>, id: int): (r: Option<C>)
    ensures r.Some? <==> id in room.users
    ensures r.Some? ==> r.value == room.users[id]
  {
    if id in room.users then Some(room.users[id]) else None
  }
}

=== FILE: router.dfy ===
/**
 * The message router (src/ws_messages.ts): one inbound message, its sender
 * and its raw text give a new state and the list of frames sent. The relays
 * build a log line from `payload.sdp` or `payload.name` just before their
 * send. That throws when the message has no `payload`, and, for the SDP, when
 * `sdp` is neither missing, null nor a string. The throw happens before any send
 * and any state change, and is returned as an error.
 */
module Router {
  import opened Wrappers
  import opened Generation
  import opened Registry
  import opened Messages

  /** Why a relay stopped early: its log line threw a TypeError. */
  datatype Fault = PayloadMissing | SdpNotString

  /** The state after a handler, and what it sent, in order. */
  datatype Effect<C> = Effect(state: State<C>, sends: seq<Send<C>>)

  /** The values the two unique generators return when the handler calls them. */
  datatype Generated = Generated(code: string, id: int)

  /*
   * Reply builders.
   */

  /** send_room_code_msg: a Lobby reply with id -1 and the new code. */
  function SendRoomCode<C>(ws: C, code: string): (s: Send<C>)
    ensures s.to == ws && s.frame.Built?
    ensures Decode(s.frame.reply.typ) == Some(Lobby) && !s.frame.reply.server
    ensures s.frame.reply.id == -1 && s.frame.reply.room_code == Some(code)
  {
    Send(ws, Built(BuildMessage(Lobby, NoFields, -1, Some(code))))
  }

  /** send_id_response_msg: an Id reply with the new id and room code "". */
  function SendIdResponse<C>(ws: C, id: int): (s: Send<C>)
    ensures s.to == ws && s.frame.Built?
    ensures Decode(s.frame.reply.typ) == Some(Id) && !s.frame.reply.server
    ensures s.frame.reply.id == id && s.frame.reply.room_code == Some("")
  {
    Send(ws, Built(BuildMessage(Id, NoFields, id, Some(""))))
  }

  /** send_join_response_msg: a Join reply with id 0, the join status and the requested code. */
  function SendJoinResponse<C>(ws: C, successful: bool, code: Option<string>): (s: Send<C>)
    ensures s.to == ws && s.frame.Built?
    ensures Decode(s.frame.reply.typ) == Some(Join) && !s.frame.reply.server
    ensures s.frame.reply.id == 0 && s.frame.reply.room_code == code
    ensures s.frame.reply.payload == JoinStatus(successful)
  {
    Send(ws, Built(BuildMessage(Join, JoinStatus(successful), 0, code)))
  }

  /*
   * Handlers that change state.
   */

  /**
   * handle_lobby_msg: store a new room, hosted by the sender, under the
   * generated code, and tell the sender the code. Every other room is kept.
   */
  function HandleLobby<C>(st: State<C>, ws: C, code: string): (e: Effect<C>)
    ensures e.state.rooms.Keys == st.rooms.Keys + {code}
    ensures e.state.rooms[code] == NewRoom(ws)
    ensures forall k :: k in st.rooms && k != code ==> e.state.rooms[k] == st.rooms[k]
    ensures e.state.usedIds == st.usedIds
    ensures e.sends == [SendRoomCode(ws, code)]
  {
    Effect(st.(rooms := st.rooms[code := NewRoom(ws)]), [SendRoomCode(ws, code)])
  }

  /** handle_id_msg: record the generated id as issued and tell the sender. */
  function HandleId<C>(st: State<C>, ws: C, id: int): (e: Effect<C>)
    ensures e.state.rooms == st.rooms
    ensures |e.state.usedIds| == |st.usedIds| + 1
    ensures e.state.usedIds[..|st.usedIds|] == st.usedIds && e.state.usedIds[|st.usedIds|] == id
    ensures e.sends == [SendIdResponse(ws, id)]
  {
    Effect(st.(usedIds := st.usedIds + [id]), [SendIdResponse(ws, id)])
  }

  /**
   * handle_join_msg: if the requested room exists, make the sender its user
   * under the message's id (replacing any earlier connection for that id)
   * and answer success; otherwise change nothing and answer failure. The id
   * is not checked against the issued ids.
   */
  function HandleJoin<C>(st: State<C>, ws: C, msg: Message): (e: Effect<C>)
    ensures LookupRoom(st, msg.room_code).None? ==>
      e.state == st && e.sends == [SendJoinResponse(ws, false, msg.room_code)]
    ensures LookupRoom(st, msg.room_code).Some? ==>
      var code := msg.room_code.value;
      && e.state.usedIds == st.usedIds
      && e.state.rooms.Keys == st.rooms.Keys
      && (forall k :: k in st.rooms && k != code ==> e.state.rooms[k] == st.rooms[k])
      && e.state.rooms[code].host == st.rooms[code].host
      && e.state.rooms[code].sealed == st.rooms[code].sealed
      && e.state.rooms[code].users.Keys == st.rooms[code].users.Keys + {msg.id}
      && e.state.rooms[code].users[msg.id] == ws
      && (forall u :: u in st.rooms[code].users && u != msg.id ==>
            e.state.rooms[code].users[u] == st.rooms[code].users[u])
      && e.sends == [SendJoinResponse(ws, true, msg.room_code)]
  {
    match LookupRoom(st, msg.room_code)
    case None => Effect(st, [SendJoinResponse(ws, false, msg.room_code)])
    case Some(room) =>
      var joined := room.(users := room.users[msg.id := ws]);
      Effect(st.(rooms := st.rooms[msg.room_code.value := joined]),
             [SendJoinResponse(ws, true, msg.room_code)])
  }

  /*
   * Relays: the raw text goes to at most one connection; state never changes.
   */

  /** The error a log line that reads `payload.sdp` (or only `payload.name`) throws, if any. */
  function LogFault(payload: Option<Payload>, readsSdp: bool): Option<Fault> {
    if payload.None? then Some(PayloadMissing)
    else if readsSdp && payload.value.sdp.NonString? then Some(SdpNotString)
    else None
  }

  /** Forward the raw text to one connection, unless the log line before the send throws. */
  function Forward<C>(st: State<C>, to: C, raw: string, msg: Message, readsSdp: bool)
    : Result<Effect<C>, Fault>
  {
    match LogFault(msg.payload, readsSdp)
    case Some(fault) => Err(fault)
    case None => Ok(Effect(st, [Send(to, Raw(raw))]))
  }

  /** relay_offer_msg: to the room's host. */
  function RelayOffer<C>(st: State<C>, raw: string, msg: Message): (r: Result<Effect<C>, Fault>)
    ensures r.Ok? ==> r.value.state == st
    ensures r.Err? <==> LookupRoom(st, msg.room_code).Some? && SdpLogThrows(msg.payload)
    ensures r.Ok? ==> (|r.value.sends| == 1 <==> LookupRoom(st, msg.room_code).Some?)
    ensures r.Ok? ==> forall s :: s in r.value.sends ==>
      var room := LookupRoom(st, msg.room_code);
      room.Some? && s == Send(room.value.host, Raw(raw))
  {
    match LookupRoom(st, msg.room_code)
    case None => Ok(Effect(st, []))
    case Some(room) => Forward(st, room.host, raw, msg, true)
  }

  /** relay_answer_msg: to the user the message's id names in the room. */
  function RelayAnswer<C>(st: State<C>, raw: string, msg: Message): (r: Result<Effect<C>, Fault>)
    ensures r.Ok? ==> r.value.state == st
    ensures r.Err? <==>
      LookupRoom(st, msg.room_code).Some? && msg.id in st.rooms[msg.room_code.value].users
      && SdpLogThrows(msg.payload)
    ensures r.Ok? ==> (|r.value.sends| == 1 <==>
      LookupRoom(st, msg.room_code).Some? && msg.id in st.rooms[msg.room_code.value].users)
    ensures r.Ok? ==> forall s :: s in r.value.sends ==>
      var room := LookupRoom(st, msg.room_code);
      room.Some? && msg.id in room.value.users && s == Send(room.value.users[msg.id], Raw(raw))
  {
    match LookupRoom(st, msg.room_code)
    case None => Ok(Effect(st, []))
    case Some(room) =>
      match LookupUser(room, msg.id)
      case None => Ok(Effect(st, []))
      case Some(user) => Forward(st, user, raw, msg, true)
  }

  /**
   * relay_candidate_msg: from the server side (`server` truthy) to the user
   * the id names; otherwise to the room's host, whatever the id.
   */
  function RelayCandidate<C>(st: State<C>, raw: string, msg: Message): (r: Result<Effect<C>, Fault>)
    ensures r.Ok? ==> r.value.state == st
    ensures r.Err? <==>
      LookupRoom(st, msg.room_code).Some? && NameLogThrows(msg.payload)
      && (msg.server ==> msg.id in st.rooms[msg.room_code.value].users)
    ensures r.Ok? ==> (|r.value.sends| == 1 <==>
      LookupRoom(st, msg.room_code).Some?
      && (msg.server ==> msg.id in st.rooms[msg.room_code.value].users))
    ensures r.Ok? && msg.server ==> forall s :: s in r.value.sends ==>
      var room := LookupRoom(st, msg.room_code);
      room.Some? && msg.id in room.value.users && s == Send(room.value.users[msg.id], Raw(raw))
    ensures r.Ok? && !msg.server ==> forall s :: s in r.value.sends ==>
      var room := LookupRoom(st, msg.room_code);
      room.Some? && s == Send(room.value.host, Raw(raw))
  {
    match LookupRoom(st, msg.room_code)
    case None => Ok(Effect(st, []))
    case Some(room) =>
      if msg.server then
        match LookupUser(room, msg.id)
        case None => Ok(Effect(st, []))
        case Some(user) => Forward(st, user, raw, msg, false)
      else
        Forward(st, room.host, raw, msg, false)
  }

  /*
   * Dispatch.
   */

  /** Is this an offer, an answer or a candidate: a type whose raw text is relayed? */
  predicate IsRelay(t: Option<MessageType>) {
    t == Some(Offer) || t == Some(Answer) || t == Some(Candidate)
  }

  /**
   * handleMessage: dispatch on the message's type number. `gen` holds what
   * the unique generators return if the handler calls them. Every other type
   * number, known to the enum or not, is ignored.
   */
  function Dispatch<C>(st: State<C>, ws: C, raw: string, msg: Message, gen: Generated)
    : (r: Result<Effect<C>, Fault>)
    ensures r.Err? ==> IsRelay(Decode(msg.typ)) && SdpLogThrows(msg.payload)
    ensures r.Ok? ==> |r.value.sends| <= 1
    ensures r.Ok? ==> forall s :: s in r.value.sends && s.frame.Built? ==>
      s.to == ws && !s.frame.reply.server
    ensures r.Ok? ==> forall s :: s in r.value.sends && s.frame.Raw? ==>
      s.frame.text == raw && IsRelay(Decode(msg.typ))
    ensures r.Ok? && Decode(msg.typ) !in {Some(Lobby), Some(Id), Some(Join)} ==> r.value.state == st
    ensures r.Ok? && Decode(msg.typ) != Some(Id) ==> r.value.state.usedIds == st.usedIds
    ensures r.Ok? && Decode(msg.typ) !in {Some(Lobby), Some(Id), Some(Join)} && !IsRelay(Decode(msg.typ)) ==>
      r.value.sends == []
  {
    match Decode(msg.typ)
    case Some(Lobby) => Ok(HandleLobby(st, ws, gen.code))
    case Some(Id) => Ok(HandleId(st, ws, gen.id))
    case Some(Join) => Ok(HandleJoin(st, ws, msg))
    case Some(Offer) => RelayOffer(st, raw, msg)
    case Some(Answer) => RelayAnswer(st, raw, msg)
    case Some(Candidate) => RelayCandidate(st, raw, msg)
    case _ => Ok(Effect(st, []))
  }

  /** The generated values meet the generators' contracts for this message and state. */
  predicate GeneratedFor<C>(st: State<C>, msg: Message, gen: Generated) {
    && (Decode(msg.typ) == Some(Lobby) ==> IsRoomCode(gen.code) && gen.code !in st.rooms)
    && (Decode(msg.typ) == Some(Id) ==> IsId(gen.id) && gen.id !in st.usedIds)
  }

  /**
   * handleMessage with its generators: a lobby request draws a code from
   * `codeAttempts`, an id request draws an id from `idDraws`, and only then
   * does the handler run. The generators only read the state.
   */
  method HandleMessage<C>(st: State<C>, ws: C, raw: string, msg: Message,
                          codeAttempts: seq<seq<int>>, idDraws: seq<int>)
    returns (r: Result<Effect<C>, Fault>, gen: Generated)
    requires Decode(msg.typ) == Some(Lobby) ==>
      AreCodeAttempts(codeAttempts) && HasFreshCode(st.rooms, codeAttempts)
    requires Decode(msg.typ) == Some(Id) ==> AreIdDraws(idDraws) && HasFreshId(st.usedIds, idDraws)
    ensures GeneratedFor(st, msg, gen) && r == Dispatch(st, ws, raw, msg, gen)
    ensures Decode(msg.typ) == Some(Lobby) ==>
      && r.Ok? && gen.code !in st.rooms
      && r.value.state.rooms.Keys == st.rooms.Keys + {gen.code}
      && r.value.state.rooms[gen.code] == NewRoom(ws)
    ensures Decode(msg.typ) == Some(Id) ==>
      && r.Ok? && IsId(gen.id) && gen.id !in st.usedIds
      && r.value.state.usedIds == st.usedIds + [gen.id]
  {
    var code, id, tries := "", 0, 0;
    var t := Decode(msg.typ);
    if t == Some(Lobby) {
      code, tries := GenerateUniqueRoomCode(st.rooms, CodeLength, codeAttempts);
    } else if t == Some(Id) {
      id, tries := GenerateUniqueId(st.usedIds, idDraws);
    }
    gen := Generated(code, id);
    r := Dispatch(st, ws, raw, msg, gen);
  }
}

=== FILE: wrappers.dfy ===
/** Plain optional and result types shared by the relay model. */
module Wrappers {

  /** A value that may be absent: an optional JSON field, a map lookup that misses. */
  datatype Option<+T> = None | Some(value: T)

  /** The outcome of a step that may throw before finishing. */
  datatype Result<+T, +E> = Ok(value: T) | Err(error: E)
}
